=== FILE: README.md ===
# Intro loader timing and ROI simulator: a Dafny model

This project models the two pieces of logic in the Agri-BioFuels marketing site.

* **The intro overlay (`IntroLoader`).** It has a frame-driven progress ramp
  from 0 to 100 over 3000 ms, a text reveal 500 ms after mount, a 500 ms hold
  once the ramp completes (which sets `isDone` and hides the overlay), then a
  1000 ms wait before the parent's `onComplete` is called. The effect's
  cleanup only resets the closure's `startTime` to 0.
  The model is a discrete-event machine over whole milliseconds; browser
  frame timestamps are fractional (see "## Left out"). The state
  is `Loader`: anchor, progress, the two flags, the pending frame request, the
  pending timers and the times `onComplete` ran. The events are
  `Frame(t)`, `Timeout(t)` and `Cleanup`. `Step` applies one event, and `Run`
  applies a trace and yields `None` when an event cannot occur where it is
  placed.
* **The investment simulator (`calculateROI` in the economics section).** A
  slider value 0..100 (initially 50) maps linearly to investment ($50M–$100M),
  IRR (18–22%), payback (7–5 years) and carbon reduction (1–2M tonnes). Each
  result is formatted with `toFixed(1)`. It is shown in a simulator tile and
  passed, through `parseFloat`, to an animated counter.

Modules: `Rounding` (`Math.round` and the one-decimal rounding of `toFixed`),
`DecimalText` (the text `toFixed(1)` writes and reading it back), `IntroLoader`
(the machine), `IntroInvariants` (the activation invariant `Wf` and its
preservation), `IntroProperties` (the timing properties), `Economics`
(the simulator) and `Options`.

Modelling choices:

* `startTime` is a `nat`. The value 0 stands for both "unassigned" and "reset by
  cleanup", because the source's `!startTime` test treats `undefined` and `0`
  alike. A frame at timestamp 0 therefore does not anchor the ramp
  (`ZeroTimestampDoesNotAnchor`).
* A timer armed inside a frame callback is armed at the frame's timestamp, so
  the hold is due 500 ms after the completing frame.
* `Timeout(t)` runs the timer with the least due time, the earliest armed
  among ties, at any time `t` at or after its due time. Late timers are allowed
  and timers are never early. A frame may run at any time at or after the
  previous callback.
* `progress`, `textVisible` and `isDone` are the values last passed to the
  state setters. After the component unmounts React discards such updates.
  The frame loop and the timers keep running, and `onComplete` is still called.
* Progress is exact `real` arithmetic, `min(elapsed / 3000 * 100, 100)`.
  `toFixed(1)` is modelled on exact reals. The magnitude is rounded to the
  nearest tenth, ties go to the larger magnitude, and a minus sign is prefixed
  for negative values, as ECMAScript specifies for `Number.prototype.toFixed`.
  `parseFloat` on that text is modelled as reading the decimal exactly
  (`ParseFixed1`).

What the cleanup and the completion call do:

* The cleanup cancels no frame or timer and only zeroes `startTime`. A frame
  still pending re-anchors and restarts the ramp (`CleanupRestartsRamp`). The
  hold and exit timers still run, so `onComplete` can run after unmount
  (`CleanupCancelsNothing`).
* `onComplete` runs at most once per effect activation (`ActivationFacts`).
  Nothing deduplicates it across activations.

## Model

| member | source | states |
|---|---|---|
| `IntroLoader.ProgressAt` | src/components/IntroLoader.tsx:16-22 | For a timestamp at or after the anchor the progress lies in [0, 100]. It never exceeds 100, and it equals exactly 100 iff at least 3000 ms have elapsed. |
| `IntroLoader.Mount` | src/components/IntroLoader.tsx:10-37 | Right after the effect body runs, the state satisfies the activation invariant. A frame is requested, the text is hidden, the overlay is shown, progress is 0 and `onComplete` has not run. |
| `IntroLoader.Step` | src/components/IntroLoader.tsx:19-41 | Under any frame, timer or cleanup event, `isDone` and `textVisible` only go from false to true. A stopped frame loop never restarts. Earlier `onComplete` calls are kept as a prefix, and time does not go back. |
| `IntroLoader.Render` | src/components/IntroLoader.tsx:71-150 | The overlay is rendered iff `!isDone`. For progress in [0, 100], `Math.round(progress)` is an integer in 0..100 and `pathLength` lies in [0, 1]. The text reads 100 iff progress ≥ 99.5, and the text agrees with the ring's target `pathLength` within half a percent. |
| `IntroInvariants.StepPreservesWf` | src/components/IntroLoader.tsx:19-41 | Every event preserves the activation invariant. Exactly one of ramp, hold, exit wait or finished holds. The reveal timer is pending iff the text is hidden. A frame is requested iff progress < 100. Timer due times respect the 500/3000/500/1000 ms schedule. |
| `IntroInvariants.RunPreservesWf` | src/components/IntroLoader.tsx:15-42 | Every trace from a well-formed state ends in a well-formed state. |
| `IntroInvariants.RevealFiresFirst` | src/components/IntroLoader.tsx:29-37 | The hold and exit timers never run while the reveal timer is pending. So the text is always shown before the overlay is dismissed. |
| `IntroProperties.ActivationFacts` | src/components/IntroLoader.tsx:19-37 | After any trace from mount, `onComplete` has run at most once, and never before mount + 4500 ms. At most one hold timer is pending, a frame is requested iff progress < 100, and progress lies in [0, 100]. |
| `IntroProperties.RunForwardOnly` | src/components/IntroLoader.tsx:24-37 | Along any trace, `isDone` and `textVisible` never return to false. A finished frame loop never resumes, and recorded `onComplete` calls are never undone. |
| `IntroProperties.FrameProgressNonDecreasing` | src/components/IntroLoader.tsx:20-22 | While the anchor is kept, a frame at a later timestamp never lowers the displayed progress. |
| `IntroProperties.FrameLoop` | src/components/IntroLoader.tsx:26-27 | Offering frames to the callback while it keeps requesting them is the same as running those frames as a trace. If frames remain unused, the loop has stopped. |
| `IntroProperties.AnchoredLoopFinishes` | src/components/IntroLoader.tsx:20-33 | Once anchored, if some offered frame (strictly increasing timestamps) reaches anchor + 3000 ms, the loop stops exactly at the first such frame with progress 100. It arms one hold timer due 500 ms after that frame and changes no flag. |
| `IntroProperties.FrameLoopTerminates` | src/components/IntroLoader.tsx:20-33 | Given at least 3002 strictly increasing frame timestamps from the current time on, the loop stops within the first 3002 of them with progress 100. It arms exactly one hold timer, due 500 ms after the completing frame. |
| `IntroProperties.CompletingFrameArmsHold` | src/components/IntroLoader.tsx:26-32 | After the frame that brings progress to 100, and the overdue reveal if the text is still hidden, no frame is requested. The only pending timer is the hold, due at the frame's time + 500. |
| `IntroProperties.CompletionSchedule` | src/components/IntroLoader.tsx:29-32 | After the completing frame at T, `isDone` cannot be set before T+500 and is set at T+500. `onComplete` cannot run before T+1500, runs once at T+1500, and afterwards nothing is pending. |
| `IntroProperties.QuiescentAfterComplete` | src/components/IntroLoader.tsx:26-33 | Once `onComplete` has run, only a cleanup can still occur: no frame or timer callback is left, and the overlay is gone. |
| `IntroProperties.RevealAtMountPlus500` | src/components/IntroLoader.tsx:37 | No timer event before mount + 500 reveals the text. The event at mount + 500 reveals it and changes nothing else, whatever the progress. |
| `IntroProperties.CleanupCancelsNothing` | src/components/IntroLoader.tsx:39-41 | Cleanup leaves the frame request, every timer, the flags, the progress and the `onComplete` record unchanged. It only resets `startTime` to 0. |
| `IntroProperties.CleanupRestartsRamp` | src/components/IntroLoader.tsx:20-41 | A frame still pending after cleanup re-anchors at its own timestamp. Progress drops to 0 and the ramp continues. |
| `IntroProperties.ZeroTimestampDoesNotAnchor` | src/components/IntroLoader.tsx:17-20 | A frame at timestamp 0 leaves `!startTime` true, so the next frame becomes the anchor with progress 0. |
| `IntroProperties.WholeActivation` | src/components/IntroLoader.tsx:16-37 | Mounted at m > 0: the text shows at m+500, the frame at m+3000 shows 100%, the overlay is gone at m+3500, and `onComplete` has run once, at m+4500, with nothing left pending. |
| `Rounding.Round` | src/components/IntroLoader.tsx:150 | `Math.round(x)` is the unique integer in (x − 0.5, x + 0.5], so halves round upward. |
| `Rounding.Tenths` | src/components/EconomicsSection.tsx:23-26 | The tenths count that `toFixed(1)` writes is within half a tenth of 10·x and carries the sign of x. A tie takes the larger magnitude, for either sign. |
| `Rounding.RoundTo1` | src/components/EconomicsSection.tsx:23-26 | The value shown with one decimal is within 0.05 of the raw value. |
| `Rounding.RoundTo1Within` | src/components/EconomicsSection.tsx:17-26 | Rounding to one decimal keeps a value, of either sign, inside any range whose ends are whole tenths, such as each metric's stated range. |
| `DecimalText.ToFixed1` | src/components/EconomicsSection.tsx:23-26 | The text has a leading minus iff the value is negative, then integer digits with no leading zero unless the integer part is 0, then a point and one digit. |
| `DecimalText.ToFixed1RoundTrip` | src/components/EconomicsSection.tsx:63 | Reading back the text `toFixed(1)` wrote gives exactly the value rounded to one decimal. |
| `Economics.Investment` | src/components/EconomicsSection.tsx:11-17 | Investment lies in [50, 100]. It is 50 at slider 0 and 100 at slider 100. |
| `Economics.Irr` | src/components/EconomicsSection.tsx:12-18 | IRR lies in [18, 22]. It is 18 at slider 0 and 22 at slider 100. |
| `Economics.Payback` | src/components/EconomicsSection.tsx:13-19 | Payback lies in [5, 7]. It is 7 at slider 0 and 5 at slider 100. |
| `Economics.Carbon` | src/components/EconomicsSection.tsx:14-20 | Carbon reduction lies in [1, 2]. It is 1 at slider 0 and 2 at slider 100. |
| `Economics.MetricsMonotone` | src/components/EconomicsSection.tsx:17-20 | Raising the slider never lowers investment, IRR or carbon and never raises payback. |
| `Economics.CalculateRoi` | src/components/EconomicsSection.tsx:9-28 | Each returned text reads back as its metric rounded to one decimal, inside the metric's stated range. Investment is shown exactly. |
| `Economics.ShownValuesMonotone` | src/components/EconomicsSection.tsx:17-26 | The one-decimal values move with the slider in the same direction as the raw metrics. |
| `Economics.InitialRoi` | src/components/EconomicsSection.tsx:6-30 | At the initial slider value 50 the texts are "75.0", "20.0", "6.0" and "1.5". |
| `Economics.CounterMatchesTile` | src/components/EconomicsSection.tsx:61-209 | For every slider value and metric, the counter gets from = 0, duration = 1500 and decimals = 1. Its target is the metric rounded to one decimal, which is exactly the number the matching simulator tile's text reads as. |

## Left out

- `AnimatedCounter`'s interpolation: its source is not part of this model. Only the arguments the economics section passes to it are modelled.
- The about section: static copy, images and animation variants. Its one decision, choosing decimals by whether a statistic is whole, drives no state.
- framer-motion springs, easing curves and the overlay's exit transition; the particle system; the background video; all layout and styling. These are rendering calls into libraries with no state the model could track.
- IEEE-754 arithmetic. Progress, the metrics and the rounding are exact reals, and the binary-representation effects of `toFixed` and of the progress division are not modelled. With whole-millisecond elapsed times this changes visible output in eight places, given in the next two lines.
- DecimalText.ToFixed1: for carbon, the double computed for `1 + (v/100)*1` lies just below the tie at v = 15, 45, 65 and 95. There the browser shows "1.1", "1.4", "1.6" and "1.9", while exact half-up rounding (`Rounding.Tenths`) gives "1.2", "1.5", "1.7" and "2.0". Every other slider value and metric agrees.
- IntroLoader.Render: the double computed for `(elapsed / 3000) * 100` lies just below the tie at elapsed = 435, 855, 1695 and 1725 ms. There the browser shows 14, 28, 56 and 57 %, while `Render`, rounding the exact elapsed/30, gives 15, 29, 57 and 58 %. Every other whole-millisecond elapsed time in 0..3000 agrees. Separately, `pathLength` is only the ring's target: the ring tweens toward it over 500 ms (line 139 of src/components/IntroLoader.tsx), so on screen it lags the percentage and reaches 1 about 500 ms after the text reads 100. The tween is not modelled.
- IntroProperties.FrameLoopTerminates: the browser passes `requestAnimationFrame` callbacks a fractional millisecond timestamp, while the model uses whole milliseconds (`nat`). The bound of 3002 frames depends on this, since strictly increasing whole numbers advance by at least 1 ms per frame. With fractional timestamps no frame count bounds the loop. The loop still ends at the first offered frame at or after anchor + 3000 ms, as `IntroProperties.AnchoredLoopFinishes` states.
- `toFixed`'s exponent form for magnitudes of 10^21 or more is not modelled. The site's values never come near that size.
- React scheduling: re-render timing, dropped state updates after unmount, and the effect re-running when `onComplete`'s identity changes. One activation is modelled. A second activation would run its own loop and timers, with its own `startTime`, but both write the same `progress`, `isDone` and `textVisible` state, so a re-anchored old ramp interleaves with the new one in the displayed percentage, and nothing in the code deduplicates `onComplete` across activations.
- The browser's sanitising of the range input's value and `parseInt`: the slider is taken to deliver an integer in 0..100 (`Scale`).
- The delay between a frame's timestamp and the moment its `setTimeout` is armed: the frame's timestamp is used as the arming time.

=== FILE: decimal_text.dfy ===
/**
 The text `Number.prototype.toFixed(1)` produces for an exact value, and the
 exact reading of such a text back into a number (what `parseFloat` yields for
 these short decimals when binary rounding is ignored).
 */
module DecimalText {
  import opened Options
  import opened Rounding

  predicate IsDigit(c: char) {
    '0' <= c <= '9'
  }

  predicate AllDigits(s: string) {
    forall i :: 0 <= i < |s| ==> IsDigit(s[i])
  }

  function DigitChar(d: nat): (c: char)
    requires d < 10
    ensures IsDigit(c)
  {
    ('0' as int + d) as char
  }

  function DigitValue(c: char): (d: nat)
    requires IsDigit(c)
    ensures d < 10
    ensures DigitChar(d) == c
  {
    c as int - '0' as int
  }

  lemma DigitRoundTrip(d: nat)
    requires d < 10
    ensures DigitValue(DigitChar(d)) == d
  {
  }

  /** Decimal numeral of `n` without leading zeros. */
  function NatToString(n: nat): (s: string)
    ensures |s| >= 1 && AllDigits(s)
    ensures s[0] == '0' ==> n == 0
    decreases n
  {
    if n < 10 then [DigitChar(n)] else NatToString(n / 10) + [DigitChar(n % 10)]
  }

  /** Value of a decimal numeral, most significant digit first. */
  function StringToNat(s: string): nat
    requires AllDigits(s)
    decreases |s|
  {
    if |s| == 0 then 0 else StringToNat(s[..|s| - 1]) * 10 + DigitValue(s[|s| - 1])
  }

  lemma {:induction false} NatStringRoundTrip(n: nat)
    ensures StringToNat(NatToString(n)) == n
    decreases n
  {
    var s := NatToString(n);
    if n < 10 {
      assert s[..0] == [];
      DigitRoundTrip(n);
    } else {
      NatStringRoundTrip(n / 10);
      assert s[..|s| - 1] == NatToString(n / 10);
      DigitRoundTrip(n % 10);
    }
  }

  /**
   `x.toFixed(1)` for |x| < 10^21: a minus sign when `x` is negative, the
   integer part of the rounded magnitude, a point, and its tenths digit.
   */
  function ToFixed1(x: real): (s: string)
    ensures |s| >= 3 && s[|s| - 2] == '.' && IsDigit(s[|s| - 1])
    ensures s[0] == '-' <==> x < 0.0
    ensures var k := if x < 0.0 then 1 else 0;
      && k < |s| - 2 && AllDigits(s[k..|s| - 2])
      && (s[k] == '0' ==> k + 1 == |s| - 2)
  {
    var n := Tenths(Abs(x));
    (if x < 0.0 then "-" else "") + NatToString(n / 10) + "." + [DigitChar(n % 10)]
  }

  /** The number spelled by a run of integer digits, a point and the tenths digit `tenth`. */
  function ParseUnsigned(digits: string, tenth: char): Option<real>
    requires IsDigit(tenth)
  {
    if |digits| == 0 || !AllDigits(digits) then None
    else Some((StringToNat(digits) * 10 + DigitValue(tenth)) as real / 10.0)
  }

  /**
   Reads an optional minus sign, one or more digits, a point and exactly one
   digit; any other text is not a one-decimal numeral.
   */
  function ParseFixed1(s: string): Option<real>
  {
    if |s| < 3 || s[|s| - 2] != '.' || !IsDigit(s[|s| - 1]) then None
    else
      var head := s[..|s| - 2];
      if head[0] == '-' then
        match ParseUnsigned(head[1..], s[|s| - 1])
        case Some(m) => Some(-m)
        case None => None
      else ParseUnsigned(head, s[|s| - 1])
  }

  lemma ParseUnsignedWritten(q: nat, d: nat)
    requires d < 10
    ensures ParseUnsigned(NatToString(q), DigitChar(d)) == Some((q * 10 + d) as real / 10.0)
  {
    DigitRoundTrip(d);
    NatStringRoundTrip(q);
  }

  lemma ParseShape(head: string, c: char)
    requires |head| >= 1 && IsDigit(c)
    ensures ParseFixed1(head + ['.', c]) ==
      if head[0] == '-' then
        match ParseUnsigned(head[1..], c)
        case Some(m) => Some(-m)
        case None => None
      else ParseUnsigned(head, c)
  {
    var s := head + ['.', c];
    assert s[..|s| - 2] == head;
  }

  /** A sign, a numeral, a point and a digit read back as the number they spell. */
  lemma ParseWritten(negative: bool, q: nat, d: nat)
    requires d < 10
    ensures var magnitude := (q * 10 + d) as real / 10.0;
      ParseFixed1((if negative then "-" else "") + NatToString(q) + "." + [DigitChar(d)])
        == Some(if negative then -magnitude else magnitude)
  {
    var body := NatToString(q);
    var c := DigitChar(d);
    ParseUnsignedWritten(q, d);
    if negative {
      var head := "-" + body;
      assert "-" + body + "." + [c] == head + ['.', c];
      assert head[1..] == body;
      ParseShape(head, c);
    } else {
      assert "" + body + "." + [c] == body + ['.', c];
      assert IsDigit(body[0]);
      ParseShape(body, c);
    }
  }

  /** Reading back what `toFixed(1)` wrote gives exactly the rounded value. */
  lemma ToFixed1RoundTrip(x: real)
    ensures ParseFixed1(ToFixed1(x)) == Some(RoundTo1(x))
  {
    var n := Tenths(Abs(x));
    var q, d := n / 10, n % 10;
    ParseWritten(x < 0.0, q, d);
    assert q * 10 + d == n;
    var magnitude := n as real / 10.0;
    if x < 0.0 {
      assert Tenths(x) == -n;
      assert RoundTo1(x) == -magnitude;
    } else {
      assert Tenths(x) == n;
    }
  }

}

=== FILE: economics.dfy ===
/**
 The investment simulator of the economics section: a facility-scale slider
 drives four linear metrics, each shown with one decimal in a simulator tile
 and handed, read back from that text, to an animated counter.
 */
module Economics {
  import opened Options
  import opened Rounding
  import opened DecimalText

  /** A value of the range input: min 0, max 100, whole steps. */
  type Scale = v: int | 0 <= v <= 100

  /** The slider's value before any input. */
  const InitialScale: Scale := 50

  /** Total investment in $M: $50M at the smallest scale, $100M at the largest. */
  function Investment(v: Scale): (x: real)
    ensures 50.0 <= x <= 100.0
    ensures v == 0 ==> x == 50.0
    ensures v == 100 ==> x == 100.0
  {
    50.0 + (v as real / 100.0) * 50.0
  }

  /** Internal rate of return in percent: 18 to 22. */
  function Irr(v: Scale): (x: real)
    ensures 18.0 <= x <= 22.0
    ensures v == 0 ==> x == 18.0
    ensures v == 100 ==> x == 22.0
  {
    18.0 + (v as real / 100.0) * 4.0
  }

  /** Payback period in years: 7 down to 5. */
  function Payback(v: Scale): (x: real)
    ensures 5.0 <= x <= 7.0
    ensures v == 0 ==> x == 7.0
    ensures v == 100 ==> x == 5.0
  {
    7.0 - (v as real / 100.0) * 2.0
  }

  /** Carbon reduction in millions of tonnes: 1 to 2. */
  function Carbon(v: Scale): (x: real)
    ensures 1.0 <= x <= 2.0
    ensures v == 0 ==> x == 1.0
    ensures v == 100 ==> x == 2.0
  {
    1.0 + (v as real / 100.0) * 1.0
  }

  /** A larger facility costs more, returns more, pays back sooner and saves more carbon. */
  lemma MetricsMonotone(v: Scale, w: Scale)
    requires v <= w
    ensures Investment(v) <= Investment(w)
    ensures Irr(v) <= Irr(w)
    ensures Payback(v) >= Payback(w)
    ensures Carbon(v) <= Carbon(w)
  {
  }

  /** The four texts `calculateROI` returns. */
  datatype Roi = Roi(investment: string, irr: string, payback: string, carbon: string)

  /**
   Each metric formatted with `toFixed(1)`. Each text reads back as the metric
   rounded to one decimal, within 0.05 of the metric and inside the same range;
   the investment is a whole number of tenths and is shown exactly.
   */
  function CalculateRoi(v: Scale): (r: Roi)
    ensures ParseFixed1(r.investment) == Some(Investment(v))
    ensures ParseFixed1(r.irr) == Some(RoundTo1(Irr(v)))
    ensures ParseFixed1(r.payback) == Some(RoundTo1(Payback(v)))
    ensures ParseFixed1(r.carbon) == Some(RoundTo1(Carbon(v)))
    ensures 18.0 <= RoundTo1(Irr(v)) <= 22.0
    ensures 5.0 <= RoundTo1(Payback(v)) <= 7.0
    ensures 1.0 <= RoundTo1(Carbon(v)) <= 2.0
  {
    ToFixed1RoundTrip(Investment(v));
    ToFixed1RoundTrip(Irr(v));
    ToFixed1RoundTrip(Payback(v));
    ToFixed1RoundTrip(Carbon(v));
    RoundTo1Exact(Investment(v), 500 + 5 * v);
    RoundTo1Within(Irr(v), 180, 220);
    RoundTo1Within(Payback(v), 50, 70);
    RoundTo1Within(Carbon(v), 10, 20);
    Roi(ToFixed1(Investment(v)), ToFixed1(Irr(v)), ToFixed1(Payback(v)), ToFixed1(Carbon(v)))
  }

  /** The shown values move with the slider in the same direction as the metrics. */
  lemma ShownValuesMonotone(v: Scale, w: Scale)
    requires v <= w
    ensures RoundTo1(Investment(v)) <= RoundTo1(Investment(w))
    ensures RoundTo1(Irr(v)) <= RoundTo1(Irr(w))
    ensures RoundTo1(Payback(v)) >= RoundTo1(Payback(w))
    ensures RoundTo1(Carbon(v)) <= RoundTo1(Carbon(w))
  {
    MetricsMonotone(v, w);
    RoundTo1Monotone(Investment(v), Investment(w));
    RoundTo1Monotone(Irr(v), Irr(w));
    RoundTo1Monotone(Payback(w), Payback(v));
    RoundTo1Monotone(Carbon(v), Carbon(w));
  }

  /** At the initial scale the section shows 75.0, 20.0, 6.0 and 1.5. */
  lemma InitialRoi()
    ensures CalculateRoi(InitialScale) == Roi("75.0", "20.0", "6.0", "1.5")
  {
    var v := InitialScale;
    TenthsNonNegative(Investment(v));
    TenthsNonNegative(Irr(v));
    TenthsNonNegative(Payback(v));
    TenthsNonNegative(Carbon(v));
    RoundOfInteger(750);
    RoundOfInteger(200);
    RoundOfInteger(60);
    RoundOfInteger(15);
    assert Tenths(Abs(Investment(v))) == 750;
    assert Tenths(Abs(Irr(v))) == 200;
    assert Tenths(Abs(Payback(v))) == 60;
    assert Tenths(Abs(Carbon(v))) == 15;
    assert NatToString(75) == "75";
    assert NatToString(20) == "20";
  }

  // ---------------------------------------------------------------------------
  // Tiles and counters

  datatype Metric = InvestmentMetric | IrrMetric | PaybackMetric | CarbonMetric

  function Field(roi: Roi, m: Metric): string {
    match m
    case InvestmentMetric => roi.investment
    case IrrMetric => roi.irr
    case PaybackMetric => roi.payback
    case CarbonMetric => roi.carbon
  }

  function Raw(v: Scale, m: Metric): real {
    match m
    case InvestmentMetric => Investment(v)
    case IrrMetric => Irr(v)
    case PaybackMetric => Payback(v)
    case CarbonMetric => Carbon(v)
  }

  /** A simulator tile: unit text around the metric's text. */
  datatype Tile = Tile(prefix: string, value: string, suffix: string)

  function SimulatorTile(roi: Roi, m: Metric): Tile {
    match m
    case InvestmentMetric => Tile("$", roi.investment, "M")
    case IrrMetric => Tile("", roi.irr, "%")
    case PaybackMetric => Tile("", roi.payback, " years")
    case CarbonMetric => Tile("", roi.carbon, "M tonnes")
  }

  /** The arguments an animated counter receives. */
  datatype CounterProps = CounterProps(from: real, to: real, duration: nat, decimals: nat)

  /**
   The counter for a metric: it starts at 0, runs 1500 ms, shows one decimal,
   and targets the metric's text read back as a number.
   */
  function Counter(roi: Roi, m: Metric): Option<CounterProps> {
    match ParseFixed1(Field(roi, m))
    case Some(x) => Some(CounterProps(0.0, x, 1500, 1))
    case None => None
  }

  /**
   For every slider value and every metric, the counter exists, starts at 0,
   runs 1500 ms with one decimal, and targets the metric rounded to one decimal,
   which is the number the matching simulator tile's text reads as.
   */
  lemma CounterMatchesTile(v: Scale, m: Metric)
    ensures var roi := CalculateRoi(v);
      && Counter(roi, m).Some?
      && Counter(roi, m).value == CounterProps(0.0, RoundTo1(Raw(v, m)), 1500, 1)
    ensures var roi := CalculateRoi(v);
      Counter(roi, m).Some? && ParseFixed1(SimulatorTile(roi, m).value) == Some(Counter(roi, m).value.to)
  {
    var roi := CalculateRoi(v);
    if m == InvestmentMetric {
      RoundTo1Exact(Investment(v), 500 + 5 * v);
    }
  }

}

=== FILE: intro_invariants.dfy ===
/**
 The activation invariant `Wf` holds from mount on: every event preserves it,
 and so does every trace. The counting lemmas here are the bookkeeping for the
 pending-timer list.
 */
module IntroInvariants {
  import opened IntroLoader

  lemma {:induction false} CountAppend(a: seq<Timer>, b: seq<Timer>, j: Job)
    ensures CountJob(a + b, j) == CountJob(a, j) + CountJob(b, j)
    decreases |b|
  {
    if |b| == 0 {
      assert a + b == a;
    } else {
      var b' := b[..|b| - 1];
      assert (a + b)[..|a + b| - 1] == a + b';
      CountAppend(a, b', j);
    }
  }

  /** Removing the timer at `i` lowers the count of its own job by one and leaves the others. */
  lemma CountRemoveAt(ts: seq<Timer>, i: nat, j: Job)
    requires i < |ts|
    ensures CountJob(ts, j) == CountJob(RemoveAt(ts, i), j) + (if ts[i].job == j then 1 else 0)
  {
    assert ts == ts[..i] + [ts[i]] + ts[i + 1..];
    CountAppend(ts[..i] + [ts[i]], ts[i + 1..], j);
    CountAppend(ts[..i], [ts[i]], j);
    CountAppend(ts[..i], ts[i + 1..], j);
    assert [ts[i]][..0] == [];
  }

  /** Every timer has one of the three jobs, so no job pending means no timer pending. */
  lemma NoJobsNoTimers(ts: seq<Timer>)
    requires CountJob(ts, RevealText) == 0 && CountJob(ts, Hold) == 0 && CountJob(ts, Complete) == 0
    ensures ts == []
  {
  }

  lemma ProgressMonotone(start: int, t1: int, t2: int)
    requires t1 <= t2
    ensures ProgressAt(start, t1) <= ProgressAt(start, t2)
  {
  }

  lemma {:induction false} StepPreservesWf(s: Loader, e: Event)
    requires Wf(s) && Enabled(s, e)
    ensures Wf(Step(s, e))
  {
    match e
    case Frame(t) => AnimatePreservesWf(s, t);
    case Timeout(t) => FirePreservesWf(s, t);
    case Cleanup =>
  }

  lemma AnimatePreservesWf(s: Loader, t: nat)
    requires Wf(s) && s.framePending && s.clock <= t
    ensures Wf(Animate(s, t))
  {
    var start := Anchor(s, t);
    assert s.mountedAt <= start <= t;
    var p := ProgressAt(start, t);
    var s' := Animate(s, t);
    if p >= 100.0 {
      var hold := Timer(t + HoldDelay, Hold);
      CountAppend(s.timers, [hold], RevealText);
      CountAppend(s.timers, [hold], Hold);
      CountAppend(s.timers, [hold], Complete);
      assert TimerOk(s.mountedAt, hold);
      AppendKeepsTimersOk(s.mountedAt, s.timers, hold);
    }
  }

  lemma FirePreservesWf(s: Loader, t: nat)
    requires Wf(s) && |s.timers| > 0 && s.clock <= t && s.timers[Earliest(s.timers)].due <= t
    ensures Wf(Fire(s, t))
  {
    var i := Earliest(s.timers);
    CountRemoveAt(s.timers, i, RevealText);
    CountRemoveAt(s.timers, i, Hold);
    CountRemoveAt(s.timers, i, Complete);
    RemoveKeepsTimersOk(s.mountedAt, s.timers, i);
    if s.startTime != 0 {
      ProgressMonotone(s.startTime, s.clock, t);
    }
    if s.timers[i].job == Hold {
      FireHoldPreservesWf(s, t);
    }
  }

  lemma RemoveKeepsTimersOk(m: nat, ts: seq<Timer>, i: nat)
    requires i < |ts|
    requires forall k :: 0 <= k < |ts| ==> TimerOk(m, ts[k])
    ensures forall k :: 0 <= k < |RemoveAt(ts, i)| ==> TimerOk(m, RemoveAt(ts, i)[k])
  {
  }

  /** The reveal timer is due long before any hold or exit timer, so it fires first. */
  lemma RevealFiresFirst(s: Loader)
    requires Wf(s) && |s.timers| > 0 && s.timers[Earliest(s.timers)].job != RevealText
    ensures s.textVisible
  {
    var i := Earliest(s.timers);
    assert TimerOk(s.mountedAt, s.timers[i]);
    if forall k :: 0 <= k < |s.timers| ==> s.timers[k].job != RevealText {
      NoReveal(s.timers);
    } else {
      var k :| 0 <= k < |s.timers| && s.timers[k].job == RevealText;
      assert false;
    }
  }

  lemma FireHoldPreservesWf(s: Loader, t: nat)
    requires Wf(s) && |s.timers| > 0 && s.clock <= t
    requires s.timers[Earliest(s.timers)].due <= t
    requires s.timers[Earliest(s.timers)].job == Hold
    ensures Wf(Fire(s, t))
  {
    var i := Earliest(s.timers);
    var m := s.mountedAt;
    var rest := RemoveAt(s.timers, i);
    RevealFiresFirst(s);
    CountRemoveAt(s.timers, i, RevealText);
    CountRemoveAt(s.timers, i, Hold);
    CountRemoveAt(s.timers, i, Complete);
    RemoveKeepsTimersOk(m, s.timers, i);
    assert TimerOk(m, s.timers[i]);
    if s.startTime != 0 {
      ProgressMonotone(s.startTime, s.clock, t);
    }
    var exit := Timer(t + ExitDelay, Complete);
    CountAppend(rest, [exit], RevealText);
    CountAppend(rest, [exit], Hold);
    CountAppend(rest, [exit], Complete);
    AppendKeepsTimersOk(m, rest, exit);
    var s' := Fire(s, t);
    assert s' == s.(clock := t, timers := rest + [exit], isDone := true);
    assert CountJob(s'.timers, Hold) + 1 == CountJob(s.timers, Hold);
    assert CountJob(s'.timers, Complete) == CountJob(s.timers, Complete) + 1;
    assert CountJob(s'.timers, RevealText) == 0;
  }

  lemma AppendKeepsTimersOk(m: nat, ts: seq<Timer>, tm: Timer)
    requires forall k :: 0 <= k < |ts| ==> TimerOk(m, ts[k])
    requires TimerOk(m, tm)
    ensures forall k :: 0 <= k < |ts + [tm]| ==> TimerOk(m, (ts + [tm])[k])
  {
  }

  lemma {:induction false} NoReveal(ts: seq<Timer>)
    requires forall k :: 0 <= k < |ts| ==> ts[k].job != RevealText
    ensures CountJob(ts, RevealText) == 0
    decreases |ts|
  {
    if |ts| > 0 {
      NoReveal(ts[..|ts| - 1]);
    }
  }

  /** Every state a trace reaches from a well-formed state is well-formed. */
  lemma {:induction false} RunPreservesWf(s: Loader, es: seq<Event>)
    requires Wf(s)
    requires Run(s, es).Some?
    ensures Wf(Run(s, es).value)
    decreases |es|
  {
    if |es| > 0 {
      StepPreservesWf(s, es[0]);
      RunPreservesWf(Step(s, es[0]), es[1..]);
    }
  }

}

=== FILE: intro_loader.dfy ===
/**
 The intro overlay's timing machine: one activation of the effect in
 `IntroLoader`, seen as a state that frame callbacks, timer callbacks and the
 effect's cleanup rewrite. Time is integer milliseconds; a frame or a timer
 event carries the time at which the browser runs it.
 */
module IntroLoader {
  import opened Options
  import Rounding

  /** Length of the progress ramp. */
  const Duration: nat := 3000
  /** Pause between the completing frame and `isDone`. */
  const HoldDelay: nat := 500
  /** Pause between `isDone` and the call of `onComplete`. */
  const ExitDelay: nat := 1000
  /** Delay from mount to the text reveal. */
  const RevealDelay: nat := 500

  /** The percentage a frame at time `t` computes against anchor `start`. */
  function ProgressAt(start: int, t: int): (p: real)
    ensures start <= t ==> 0.0 <= p <= 100.0
    ensures p <= 100.0
    ensures p == 100.0 <==> t - start >= Duration
  {
    var raw := (t - start) as real / Duration as real * 100.0;
    if raw < 100.0 then raw else 100.0
  }

  /** What a pending `setTimeout` callback will do. */
  datatype Job =
    | RevealText  // setTextVisible(true)
    | Hold        // setIsDone(true), then arm the exit timer
    | Complete    // call onComplete

  datatype Timer = Timer(due: nat, job: Job)

  /**
   One activation. `startTime` is the closure variable of the effect; 0 stands
   both for "not yet assigned" and for the value the cleanup writes, since the
   source's `!startTime` test treats both alike. `progress`, `textVisible` and
   `isDone` are the values last handed to the state setters. `framePending` is
   an outstanding `requestAnimationFrame`, `timers` the outstanding
   `setTimeout`s in arming order, `completions` the times `onComplete` ran.
   `clock` is the time of the latest callback and `mountedAt` the mount time.
   */
  datatype Loader = Loader(
    mountedAt: nat,
    clock: nat,
    startTime: nat,
    progress: real,
    textVisible: bool,
    isDone: bool,
    framePending: bool,
    timers: seq<Timer>,
    completions: seq<nat>)

  datatype Event =
    | Frame(t: nat)    // the browser runs the requested frame callback with timestamp t
    | Timeout(t: nat)  // the event loop runs the earliest due timer at time t
    | Cleanup          // the effect's cleanup function runs

  /** Number of pending timers with job `j`. */
  function CountJob(ts: seq<Timer>, j: Job): nat
  {
    if |ts| == 0 then 0
    else CountJob(ts[..|ts| - 1], j) + (if ts[|ts| - 1].job == j then 1 else 0)
  }

  /** Timing facts every pending timer of an activation mounted at `m` satisfies. */
  predicate TimerOk(m: nat, tm: Timer) {
    match tm.job
    case RevealText => tm.due == m + RevealDelay
    case Hold => tm.due >= m + Duration + HoldDelay
    case Complete => tm.due >= m + Duration + HoldDelay + ExitDelay
  }

  /**
   The invariant of an activation. The ramp, the hold, the exit wait and the
   finished call are four phases of which exactly one is current; the reveal
   timer is pending exactly while the text is hidden; nothing is dismissed
   before the text shows; and `progress` is a ramp value that only a
   re-anchoring can take back.
   */
  predicate Wf(s: Loader) {
    && (if s.framePending then 1 else 0) + CountJob(s.timers, Hold)
       + CountJob(s.timers, Complete) + |s.completions| == 1
    && (s.isDone <==> CountJob(s.timers, Complete) + |s.completions| == 1)
    && CountJob(s.timers, RevealText) <= 1
    && (s.textVisible <==> CountJob(s.timers, RevealText) == 0)
    && (s.isDone ==> s.textVisible)
    && (forall k :: 0 <= k < |s.timers| ==> TimerOk(s.mountedAt, s.timers[k]))
    && (forall k :: 0 <= k < |s.completions| ==>
          s.completions[k] >= s.mountedAt + Duration + HoldDelay + ExitDelay)
    && s.mountedAt <= s.clock
    && (s.startTime != 0 ==> s.mountedAt <= s.startTime <= s.clock)
    && 0.0 <= s.progress <= 100.0
    && (s.framePending <==> s.progress < 100.0)
    && (s.startTime != 0 ==> s.progress <= ProgressAt(s.startTime, s.clock))
  }

  /** The state right after the effect body ran at time `m`. */
  function Mount(m: nat): (s: Loader)
    ensures Wf(s)
    ensures s.framePending && !s.textVisible && !s.isDone && s.progress == 0.0
    ensures |s.completions| == 0
  {
    Loader(m, m, 0, 0.0, false, false, true, [Timer(m + RevealDelay, RevealText)], [])
  }

  /** Index of the timer that fires next: least due time, earliest armed among ties. */
  function Earliest(ts: seq<Timer>): (i: nat)
    requires |ts| > 0
    ensures i < |ts|
    ensures forall k :: 0 <= k < |ts| ==> ts[i].due <= ts[k].due
    ensures forall k :: 0 <= k < i ==> ts[k].due > ts[i].due
  {
    if |ts| == 1 then 0
    else
      var k := Earliest(ts[1..]) + 1;
      if ts[0].due <= ts[k].due then 0 else k
  }

  function RemoveAt(ts: seq<Timer>, i: nat): (r: seq<Timer>)
    requires i < |ts|
    ensures |r| == |ts| - 1
    ensures forall k :: 0 <= k < |r| ==> r[k] == (if k < i then ts[k] else ts[k + 1])
  {
    ts[..i] + ts[i + 1..]
  }

  predicate Enabled(s: Loader, e: Event) {
    match e
    case Frame(t) => s.framePending && s.clock <= t
    case Timeout(t) => |s.timers| > 0 && s.clock <= t && s.timers[Earliest(s.timers)].due <= t
    case Cleanup => true
  }

  /** The start time the frame callback uses at `t`: `if (!startTime) startTime = timestamp`. */
  function Anchor(s: Loader, t: nat): nat {
    if s.startTime == 0 then t else s.startTime
  }

  /** The frame callback `animate` at timestamp `t`. */
  function Animate(s: Loader, t: nat): Loader {
    var start := Anchor(s, t);
    var p := ProgressAt(start, t);
    if p < 100.0 then
      s.(clock := t, startTime := start, progress := p, framePending := true)
    else
      s.(clock := t, startTime := start, progress := p, framePending := false,
         timers := s.timers + [Timer(t + HoldDelay, Hold)])
  }

  /** The earliest pending timer's callback, run at time `t`. */
  function Fire(s: Loader, t: nat): Loader
    requires |s.timers| > 0
  {
    var i := Earliest(s.timers);
    var rest := RemoveAt(s.timers, i);
    match s.timers[i].job
    case RevealText => s.(clock := t, timers := rest, textVisible := true)
    case Hold => s.(clock := t, timers := rest + [Timer(t + ExitDelay, Complete)], isDone := true)
    case Complete => s.(clock := t, timers := rest, completions := s.completions + [t])
  }

  /**
   One event. The flags only ever go from false to true, the frame loop never
   restarts once it stopped, `onComplete` calls are only ever added, and
   time does not run backwards.
   */
  function Step(s: Loader, e: Event): (s': Loader)
    requires Enabled(s, e)
    ensures s.isDone ==> s'.isDone
    ensures s.textVisible ==> s'.textVisible
    ensures !s.framePending ==> !s'.framePending
    ensures |s.completions| <= |s'.completions| && s'.completions[..|s.completions|] == s.completions
    ensures s'.mountedAt == s.mountedAt && s.clock <= s'.clock
  {
    match e
    case Frame(t) => Animate(s, t)
    case Timeout(t) => Fire(s, t)
    case Cleanup => s.(startTime := 0)
  }

  /** A trace of events; `None` when some event could not happen where it is placed. */
  function Run(s: Loader, es: seq<Event>): Option<Loader>
    decreases |es|
  {
    if |es| == 0 then Some(s)
    else if Enabled(s, es[0]) then Run(Step(s, es[0]), es[1..])
    else None
  }

  /** What the component renders from the state. */
  datatype View = View(overlay: bool, percent: int, pathLength: real, textShown: bool)

  /**
   The overlay is present exactly until `isDone`; the percentage is
   `Math.round(progress)` and the ring's target `pathLength` is
   `progress / 100`, so for a progress in range the text is a whole
   percentage in 0..100 within half a percent of the ring's target, and it
   reads 100 from a progress of 99.5 on.
   */
  function Render(s: Loader): (v: View)
    ensures v.overlay <==> !s.isDone
    ensures v.textShown == s.textVisible
    ensures 0.0 <= s.progress <= 100.0 ==>
              && 0 <= v.percent <= 100
              && 0.0 <= v.pathLength <= 1.0
              && (v.percent == 100 <==> s.progress >= 99.5)
    ensures -0.5 < v.percent as real - 100.0 * v.pathLength <= 0.5
  {
    View(!s.isDone, Rounding.Round(s.progress), s.progress / 100.0, s.textVisible)
  }

}

=== FILE: intro_properties.dfy ===
/**
 Properties of one activation of the intro overlay: at most one `onComplete`,
 termination of the frame loop, the exact hold/exit schedule, the reveal
 timer, and what the cleanup does (and does not) do.
 */
module IntroProperties {
  import opened Options
  import opened IntroLoader
  import opened IntroInvariants

  /**
   Whatever happens after mount, `onComplete` has run at most once, never
   earlier than 4500 ms after mount, at most one hold timer is pending, a frame
   is requested exactly while progress is below 100, and progress stays in 0..100.
   */
  lemma ActivationFacts(m: nat, es: seq<Event>)
    requires Run(Mount(m), es).Some?
    ensures var s := Run(Mount(m), es).value;
      && |s.completions| <= 1
      && (forall k :: 0 <= k < |s.completions| ==> s.completions[k] >= m + Duration + HoldDelay + ExitDelay)
      && CountJob(s.timers, Hold) <= 1
      && (s.framePending <==> s.progress < 100.0)
      && 0.0 <= s.progress <= 100.0
  {
    RunPreservesWf(Mount(m), es);
    RunKeepsMount(Mount(m), es);
  }

  lemma {:induction false} RunKeepsMount(s: Loader, es: seq<Event>)
    requires Run(s, es).Some?
    ensures Run(s, es).value.mountedAt == s.mountedAt
    decreases |es|
  {
    if |es| > 0 {
      RunKeepsMount(Step(s, es[0]), es[1..]);
    }
  }

  /**
   The flags and the record of `onComplete` calls only move forward along a
   trace: `isDone` and `textVisible` never go back to false, a finished frame
   loop never resumes, and earlier calls of `onComplete` are never undone.
   */
  lemma {:induction false} RunForwardOnly(s: Loader, es: seq<Event>)
    requires Run(s, es).Some?
    ensures var r := Run(s, es).value;
      && (s.isDone ==> r.isDone)
      && (s.textVisible ==> r.textVisible)
      && (!s.framePending ==> !r.framePending)
      && |s.completions| <= |r.completions|
      && r.completions[..|s.completions|] == s.completions
      && s.clock <= r.clock
    decreases |es|
  {
    if |es| > 0 {
      var s1 := Step(s, es[0]);
      RunForwardOnly(s1, es[1..]);
      var r := Run(s, es).value;
      assert r.completions[..|s.completions|] == r.completions[..|s1.completions|][..|s.completions|];
    }
  }

  /**
   While the anchor is kept, a later frame never shows a smaller progress
   than the value currently on screen.
   */
  lemma FrameProgressNonDecreasing(s: Loader, t: nat)
    requires Wf(s) && s.framePending && s.clock <= t && s.startTime != 0
    ensures Animate(s, t).startTime == s.startTime
    ensures s.progress <= Animate(s, t).progress
  {
    ProgressMonotone(s.startTime, s.clock, t);
  }

  // ---------------------------------------------------------------------------
  // The frame loop terminates

  predicate NonDecreasing(ts: seq<nat>) {
    forall i, j :: 0 <= i <= j < |ts| ==> ts[i] <= ts[j]
  }

  predicate StrictlyIncreasing(ts: seq<nat>) {
    forall i, j :: 0 <= i < j < |ts| ==> ts[i] < ts[j]
  }

  function FrameEvents(ts: seq<nat>): (es: seq<Event>)
    ensures |es| == |ts|
    ensures forall k :: 0 <= k < |ts| ==> es[k] == Frame(ts[k])
  {
    if |ts| == 0 then [] else [Frame(ts[0])] + FrameEvents(ts[1..])
  }

  /**
   Offers the frame timestamps `ts` to the callback for as long as it keeps
   requesting frames. Returns the state and the number of frames it took;
   those frames, as a trace, reach the same state, and unless the offered
   frames ran out the loop has stopped.
   */
  function FrameLoop(s: Loader, ts: seq<nat>): (r: (Loader, nat))
    requires NonDecreasing(ts) && (|ts| > 0 ==> s.clock <= ts[0])
    ensures r.1 <= |ts|
    ensures Run(s, FrameEvents(ts[..r.1])) == Some(r.0)
    ensures r.1 < |ts| ==> !r.0.framePending
    decreases |ts|
  {
    if |ts| == 0 || !s.framePending then
      assert ts[..0] == [];
      (s, 0)
    else
      var (r, n) := FrameLoop(Animate(s, ts[0]), ts[1..]);
      assert ts[..n + 1][1..] == ts[1..][..n];
      (r, n + 1)
  }

  lemma {:induction false} StrictGap(ts: seq<nat>, i: nat, j: nat)
    requires StrictlyIncreasing(ts) && i <= j < |ts|
    ensures ts[j] >= ts[i] + (j - i)
    decreases j - i
  {
    if i < j {
      StrictGap(ts, i, j - 1);
    }
  }

  /**
   Once anchored, frames reaching 3000 ms past the anchor end the loop at the
   first of them at or after anchor + 3000 ms, and arm one hold timer.
   */
  lemma {:induction false} AnchoredLoopFinishes(s: Loader, ts: seq<nat>)
    requires s.framePending && s.startTime != 0
    requires StrictlyIncreasing(ts) && |ts| > 0 && s.clock <= ts[0]
    requires ts[|ts| - 1] >= s.startTime + Duration
    ensures var r := FrameLoop(s, ts).0;
      && r.clock in ts && r.clock >= s.startTime + Duration
      && (forall j :: 0 <= j < |ts| && ts[j] < r.clock ==> ts[j] < s.startTime + Duration)
    ensures var r := FrameLoop(s, ts).0;
      && !r.framePending && r.progress == 100.0
      && r.timers == s.timers + [Timer(r.clock + HoldDelay, Hold)]
      && r.startTime == s.startTime
      && r.isDone == s.isDone && r.textVisible == s.textVisible
      && r.completions == s.completions
    decreases |ts|
  {
    var p := ProgressAt(s.startTime, ts[0]);
    var s1 := Animate(s, ts[0]);
    if p < 100.0 {
      assert |ts| > 1;
      AnchoredLoopFinishes(s1, ts[1..]);
    } else {
      assert FrameLoop(s1, ts[1..]).0 == s1;
    }
  }

  /**
   Frames at strictly increasing timestamps stop the loop within 3002 frames
   (3000 ms of ramp plus up to two frames to anchor, because a timestamp of 0
   does not anchor), and the loop arms exactly one hold timer, due 500 ms
   after the frame that completed it, with the progress at 100.
   */
  lemma FrameLoopTerminates(s: Loader, ts: seq<nat>)
    requires Wf(s) && s.framePending
    requires StrictlyIncreasing(ts) && |ts| >= Duration + 2 && s.clock <= ts[0]
    ensures var (r, n) := FrameLoop(s, ts);
      && n <= Duration + 2
      && !r.framePending && r.progress == 100.0
      && r.timers == s.timers + [Timer(r.clock + HoldDelay, Hold)]
      && r.isDone == s.isDone && r.completions == s.completions
  {
    var k := Duration + 2;
    var head := ts[..k];
    assert StrictlyIncreasing(head);
    StrictGap(ts, 0, k - 1);
    if s.startTime != 0 {
      AnchoredLoopFinishes(s, head);
    } else if ts[0] != 0 {
      UnanchoredLoopFinishes(s, head);
    } else {
      StrictGap(ts, 1, k - 1);
      ZeroStartLoopFinishes(s, head);
    }
    FrameLoopPrefix(s, ts, k);
  }

  lemma UnanchoredLoopFinishes(s: Loader, ts: seq<nat>)
    requires s.framePending && s.startTime == 0
    requires StrictlyIncreasing(ts) && |ts| > 1 && s.clock <= ts[0] && ts[0] != 0
    requires ts[|ts| - 1] >= ts[0] + Duration
    ensures var r := FrameLoop(s, ts).0;
      && !r.framePending && r.progress == 100.0
      && r.timers == s.timers + [Timer(r.clock + HoldDelay, Hold)]
      && r.isDone == s.isDone && r.completions == s.completions
  {
    var s1 := Animate(s, ts[0]);
    assert s1.framePending && s1.startTime == ts[0] && s1.timers == s.timers;
    AnchoredLoopFinishes(s1, ts[1..]);
  }

  lemma ZeroStartLoopFinishes(s: Loader, ts: seq<nat>)
    requires s.framePending && s.startTime == 0
    requires StrictlyIncreasing(ts) && |ts| > 2 && s.clock <= ts[0] && ts[0] == 0
    requires ts[|ts| - 1] >= ts[1] + Duration
    ensures var r := FrameLoop(s, ts).0;
      && !r.framePending && r.progress == 100.0
      && r.timers == s.timers + [Timer(r.clock + HoldDelay, Hold)]
      && r.isDone == s.isDone && r.completions == s.completions
  {
    var s1 := Animate(s, ts[0]);
    assert s1.framePending && s1.startTime == 0 && s1.timers == s.timers;
    assert ts[1..][1..] == ts[2..];
    UnanchoredLoopFinishes(s1, ts[1..]);
  }

  /** If the loop stops within the first `k` frames, the frames after those do not matter. */
  lemma {:induction false} FrameLoopPrefix(s: Loader, ts: seq<nat>, k: nat)
    requires NonDecreasing(ts) && (|ts| > 0 ==> s.clock <= ts[0]) && k <= |ts|
    requires !FrameLoop(s, ts[..k]).0.framePending
    ensures FrameLoop(s, ts) == FrameLoop(s, ts[..k])
    decreases k
  {
    if k > 0 && s.framePending {
      var s1 := Animate(s, ts[0]);
      assert ts[..k][0] == ts[0];
      assert ts[..k][1..] == ts[1..][..k - 1];
      assert FrameLoop(s, ts[..k]).0 == FrameLoop(s1, ts[1..][..k - 1]).0;
      assert NonDecreasing(ts[1..]);
      FrameLoopPrefix(s1, ts[1..], k - 1);
    }
  }

  // ---------------------------------------------------------------------------
  // The hold and exit schedule

  /**
   The frame at `T` that completes the ramp, followed, if the text is still
   hidden, by the overdue reveal timer running at the same moment.
   */
  function CompletingFrame(s: Loader, T: nat): seq<Event> {
    [Frame(T)] + (if s.textVisible then [] else [Timeout(T)])
  }

  lemma CompletingFrameArmsHold(s: Loader, T: nat)
    requires Wf(s) && s.framePending && s.clock <= T
    requires T >= Anchor(s, T) + Duration
    ensures var r := Run(s, CompletingFrame(s, T));
      && r.Some?
      && r.value.timers == [Timer(T + HoldDelay, Hold)]
      && r.value.clock == T && !r.value.framePending && r.value.progress == 100.0
      && r.value.textVisible && !r.value.isDone && r.value.completions == []
  {
    var a := Animate(s, T);
    StepPreservesWf(s, Frame(T));
    if s.textVisible {
      NoJobsNoTimers(s.timers);
    } else {
      // The only pending timer is the reveal timer.
      var rest := s.timers;
      assert |rest| > 0;
      CountRemoveAt(rest, 0, RevealText);
      CountRemoveAt(rest, 0, Hold);
      CountRemoveAt(rest, 0, Complete);
      NoJobsNoTimers(RemoveAt(rest, 0));
      assert TimerOk(s.mountedAt, rest[0]);
      assert rest == [Timer(s.mountedAt + RevealDelay, RevealText)];
      assert a.timers == [rest[0], Timer(T + HoldDelay, Hold)];
      assert Earliest(a.timers) == 0;
      var b := Fire(a, T);
      assert b.timers == [Timer(T + HoldDelay, Hold)];
      RunStep(s, Frame(T), [Timeout(T)]);
      RunStep(a, Timeout(T), []);
    }
    RunStep(s, Frame(T), []);
  }

  /**
   After the ramp completes with a frame at `T`: `isDone` cannot become true
   before `T + 500` and does at `T + 500` when the hold timer runs on time;
   `onComplete` cannot run before `T + 1500`, runs at `T + 1500` when the exit
   timer runs on time, and after it nothing is left pending.
   */
  lemma CompletionSchedule(s: Loader, T: nat)
    requires Wf(s) && s.framePending && s.clock <= T
    requires T >= Anchor(s, T) + Duration
    ensures var pre := CompletingFrame(s, T);
      && (forall t: nat :: t < T + HoldDelay ==> Run(s, pre + [Timeout(t)]) == None)
      && Run(s, pre + [Timeout(T + HoldDelay)]).Some?
      && Run(s, pre + [Timeout(T + HoldDelay)]).value.isDone
      && Run(s, pre + [Timeout(T + HoldDelay)]).value.completions == []
      && (forall t: nat :: t < T + HoldDelay + ExitDelay ==>
            Run(s, pre + [Timeout(T + HoldDelay), Timeout(t)]) == None)
      && Run(s, pre + [Timeout(T + HoldDelay), Timeout(T + HoldDelay + ExitDelay)]).Some?
      && Run(s, pre + [Timeout(T + HoldDelay), Timeout(T + HoldDelay + ExitDelay)]).value.completions
           == [T + HoldDelay + ExitDelay]
      && Run(s, pre + [Timeout(T + HoldDelay), Timeout(T + HoldDelay + ExitDelay)]).value.timers == []
      && !Run(s, pre + [Timeout(T + HoldDelay), Timeout(T + HoldDelay + ExitDelay)]).value.framePending
  {
    var pre := CompletingFrame(s, T);
    CompletingFrameArmsHold(s, T);
    var a := Run(s, pre).value;
    var hold := Timeout(T + HoldDelay);
    var exit := Timeout(T + HoldDelay + ExitDelay);
    var b := Fire(a, T + HoldDelay);
    var c := Fire(b, T + HoldDelay + ExitDelay);
    assert b.timers == [Timer(T + HoldDelay + ExitDelay, Complete)];
    forall t: nat | t < T + HoldDelay
      ensures Run(s, pre + [Timeout(t)]) == None
    {
      RunAppend(s, pre, [Timeout(t)]);
    }
    RunAppend(s, pre, [hold]);
    RunStep(a, hold, []);
    forall t: nat | t < T + HoldDelay + ExitDelay
      ensures Run(s, pre + [hold, Timeout(t)]) == None
    {
      RunAppend(s, pre, [hold, Timeout(t)]);
      assert [hold, Timeout(t)] == [hold] + [Timeout(t)];
      RunStep(a, hold, [Timeout(t)]);
      assert !Enabled(b, Timeout(t));
    }
    RunAppend(s, pre, [hold, exit]);
    assert [hold, exit] == [hold] + [exit];
    RunStep(a, hold, [exit]);
    RunStep(b, exit, []);
    assert c.completions == [T + HoldDelay + ExitDelay];
    assert c.timers == [];
  }

  lemma {:induction false} RunAppend(s: Loader, xs: seq<Event>, ys: seq<Event>)
    requires Run(s, xs).Some?
    ensures Run(s, xs + ys) == Run(Run(s, xs).value, ys)
    decreases |xs|
  {
    if |xs| == 0 {
      assert xs + ys == ys;
    } else {
      assert (xs + ys)[1..] == xs[1..] + ys;
      RunAppend(Step(s, xs[0]), xs[1..], ys);
    }
  }

  lemma RunStep(s: Loader, e: Event, es: seq<Event>)
    requires Enabled(s, e)
    ensures Run(s, [e] + es) == Run(Step(s, e), es)
  {
    assert ([e] + es)[1..] == es;
  }

  /** After `onComplete` has run, no frame and no timer callback is left to run. */
  lemma QuiescentAfterComplete(s: Loader, e: Event)
    requires Wf(s) && |s.completions| == 1
    requires Enabled(s, e)
    ensures e == Cleanup
    ensures s.isDone && !Render(s).overlay
  {
    NoJobsNoTimers(s.timers);
  }

  // ---------------------------------------------------------------------------
  // The text reveal

  /**
   The text is revealed by the timer due 500 ms after mount: no timer event
   before that reveals it, and a timer event at that moment reveals it and
   changes nothing else, whatever the progress.
   */
  lemma RevealAtMountPlus500(s: Loader)
    requires Wf(s) && !s.textVisible && s.clock <= s.mountedAt + RevealDelay
    ensures forall t: nat :: t < s.mountedAt + RevealDelay ==> Run(s, [Timeout(t)]) == None
    ensures var i := Earliest(s.timers);
      Run(s, [Timeout(s.mountedAt + RevealDelay)])
        == Some(s.(clock := s.mountedAt + RevealDelay, textVisible := true,
                   timers := RemoveAt(s.timers, i)))
  {
    var i := Earliest(s.timers);
    assert TimerOk(s.mountedAt, s.timers[i]);
    if s.timers[i].job != RevealText {
      RevealFiresFirst(s);
    }
  }

  // ---------------------------------------------------------------------------
  // The cleanup

  /** The cleanup cancels no frame and no timer: it only forgets the anchor. */
  lemma CleanupCancelsNothing(s: Loader)
    requires Wf(s)
    ensures var r := Run(s, [Cleanup]).value;
      && r.framePending == s.framePending && r.timers == s.timers
      && r.completions == s.completions && r.progress == s.progress
      && r.isDone == s.isDone && r.textVisible == s.textVisible
      && r.startTime == 0 && Wf(r)
  {
    StepPreservesWf(s, Cleanup);
  }

  /**
   A frame still pending after the cleanup re-anchors at its own timestamp, so
   the progress falls back to 0 and the ramp starts over; without the cleanup
   the same frame would never lower the progress.
   */
  lemma CleanupRestartsRamp(s: Loader, t: nat)
    requires Wf(s) && s.framePending && s.clock <= t && t != 0
    ensures var r := Run(s, [Cleanup, Frame(t)]);
      && r.Some? && r.value.startTime == t && r.value.progress == 0.0 && r.value.framePending
  {
    var c := s.(startTime := 0);
    RunStep(s, Cleanup, [Frame(t)]);
    RunStep(c, Frame(t), []);
  }

  /**
   Timestamp 0 does not anchor: `!startTime` still holds after it, so the next
   frame anchors instead and the ramp starts from there.
   */
  lemma ZeroTimestampDoesNotAnchor(t: nat)
    requires 0 < t
    ensures var r := Run(Mount(0), [Frame(0), Frame(t)]);
      && r.Some? && r.value.startTime == t && r.value.progress == 0.0
  {
    var s0 := Mount(0);
    RunStep(s0, Frame(0), [Frame(t)]);
    RunStep(Animate(s0, 0), Frame(t), []);
  }

  // ---------------------------------------------------------------------------
  // A whole activation

  /**
   Mounted at `m > 0` with a first frame at mount: the text shows at
   `m + 500`, the frame at `m + 3000` shows 100%, the overlay is gone at
   `m + 3500`, and `onComplete` has run once, at `m + 4500`.
   */
  lemma WholeActivation(m: nat)
    requires m > 0
    ensures var r := Run(Mount(m), [Frame(m), Timeout(m + 500)]);
      r.Some? && r.value.textVisible && r.value.progress == 0.0
    ensures var r := Run(Mount(m), [Frame(m), Timeout(m + 500), Frame(m + 3000)]);
      r.Some? && Render(r.value).percent == 100 && Render(r.value).overlay
    ensures var r := Run(Mount(m), [Frame(m), Timeout(m + 500), Frame(m + 3000), Timeout(m + 3500)]);
      r.Some? && !Render(r.value).overlay && r.value.completions == []
    ensures var r := Run(Mount(m), [Frame(m), Timeout(m + 500), Frame(m + 3000), Timeout(m + 3500), Timeout(m + 4500)]);
      r.Some? && r.value.completions == [m + 4500] && r.value.timers == [] && !r.value.framePending
  {
    var s0 := Mount(m);
    var s1 := Animate(s0, m);
    var s2 := Fire(s1, m + 500);
    assert s2.timers == [];
    RunStep(s0, Frame(m), [Timeout(m + 500)]);
    RunStep(s1, Timeout(m + 500), []);
    assert Run(Mount(m), [Frame(m), Timeout(m + 500)]) == Some(s2);
    StepPreservesWf(s0, Frame(m));
    StepPreservesWf(s1, Timeout(m + 500));
    CompletionSchedule(s2, m + 3000);
    CompletingFrameArmsHold(s2, m + 3000);
    var pre := [Frame(m), Timeout(m + 500)];
    assert CompletingFrame(s2, m + 3000) == [Frame(m + 3000)];
    forall es: seq<Event> ensures Run(s0, pre + es) == Run(s2, es) {
      RunAppend(s0, pre, es);
    }
    assert pre + [Frame(m + 3000)] == [Frame(m), Timeout(m + 500), Frame(m + 3000)];
    assert pre + ([Frame(m + 3000)] + [Timeout(m + 3500)])
        == [Frame(m), Timeout(m + 500), Frame(m + 3000), Timeout(m + 3500)];
    assert pre + ([Frame(m + 3000)] + [Timeout(m + 3500), Timeout(m + 4500)])
        == [Frame(m), Timeout(m + 500), Frame(m + 3000), Timeout(m + 3500), Timeout(m + 4500)];
  }

}

=== FILE: options.dfy ===
/** The optional value used for partial operations of the model: an event that
    cannot happen in a state, or a string that is not a decimal numeral. */
module Options {

  datatype Option<+T> = None | Some(value: T)

}

=== FILE: rounding.dfy ===
/**
 The two roundings the site performs on exact values: JavaScript's `Math.round`
 (nearest integer, halves upward) and the digit selection of `toFixed(1)`
 (nearest tenth of the magnitude, halves away from zero).
 Both are stated over exact `real` values; binary floating point is not modelled.
 */
module Rounding {

  /** `Math.round(x)`: the integer nearest to `x`, a half rounding up. */
  function Round(x: real): (r: int)
    ensures x - 0.5 < r as real <= x + 0.5
  {
    (x + 0.5).Floor
  }

  lemma RoundOfInteger(k: int)
    ensures Round(k as real) == k
  {
  }

  lemma RoundMonotone(x: real, y: real)
    requires x <= y
    ensures Round(x) <= Round(y)
  {
  }

  /** Rounding never leaves an interval whose ends are integers. */
  lemma RoundWithin(x: real, lo: int, hi: int)
    requires lo as real <= x <= hi as real
    ensures lo <= Round(x) <= hi
  {
  }

  function Abs(x: real): (r: real)
    ensures r >= 0.0 && (r == x || r == -x)
  {
    if x < 0.0 then -x else x
  }

  /**
   The number of tenths `toFixed(1)` writes for `x`: the magnitude is rounded
   to the nearest tenth with a tie taking the larger magnitude, and the sign
   of `x` is put back in front.
   */
  function Tenths(x: real): (n: int)
    ensures 10.0 * x - 0.5 <= n as real <= 10.0 * x + 0.5
    ensures x >= 0.0 ==> n >= 0
    ensures x <= 0.0 ==> n <= 0
    ensures 10.0 * Abs(x) - 0.5 < Abs(n as real) <= 10.0 * Abs(x) + 0.5
  {
    if x < 0.0 then -Round(-10.0 * x) else Round(10.0 * x)
  }

  /** The value `toFixed(1)` denotes: `x` rounded to one decimal place. */
  function RoundTo1(x: real): (r: real)
    ensures x - 0.05 <= r <= x + 0.05
  {
    Tenths(x) as real / 10.0
  }

  /** For a non-negative input, the number of tenths is an ordinary half-up rounding. */
  lemma TenthsNonNegative(x: real)
    requires x >= 0.0
    ensures Tenths(x) == Round(10.0 * x)
  {
  }

  lemma RoundTo1Monotone(x: real, y: real)
    requires 0.0 <= x <= y
    ensures RoundTo1(x) <= RoundTo1(y)
  {
    RoundMonotone(10.0 * x, 10.0 * y);
  }

  /** A value that is already a whole number of tenths is shown exactly. */
  lemma RoundTo1Exact(x: real, k: int)
    requires x >= 0.0 && 10.0 * x == k as real
    ensures RoundTo1(x) == x
  {
    RoundOfInteger(k);
  }

  /**
   Rounding to one decimal keeps a value inside any interval whose ends are
   whole numbers of tenths, `lo/10` and `hi/10`.
   */
  lemma RoundTo1Within(x: real, lo: int, hi: int)
    requires lo as real / 10.0 <= x <= hi as real / 10.0
    ensures lo as real / 10.0 <= RoundTo1(x) <= hi as real / 10.0
  {
    if x < 0.0 {
      RoundWithin(-10.0 * x, -hi, -lo);
    } else {
      RoundWithin(10.0 * x, lo, hi);
    }
  }

}
